=== FILE: README.md ===
# json-file-formatter, modelled in Dafny

`JsonFileFormatter` is a one-shot batch job. It keeps a watermark, the modification time of the
newest file processed so far (the current instant when no configuration exists yet), in an
XML properties file. On each run it lists a source directory and picks the
`.json` files modified strictly after the watermark. It moves the watermark up to the newest
of those files and saves it. Then it writes a pretty-printed copy of each picked file into
a destination directory. The copy's name comes from the document's `X-AEM-PATH` field plus a
17-digit timestamp. If that field cannot be read, the name is the input name with
`_FORMATTED` appended.

This project models that core as pure functions over abstract inputs:

- `basics.dfy`: module `Basics`. `Option`, and `EndsWith` as Java's `String.endsWith`.
- `json.dfy`: module `Json`. JSON values (`JsonValue`) and a document that may be malformed. It models the
  reader calls `read()` (`Read`) and `readArray().getJsonObject(1).getString("X-AEM-PATH")`
  (`AemPath`), with every exception of that chain made explicit as `None`.
- `discovery.dfy`: module `Discovery`. A file is `FileEntry(name, modTime)`. The listing
  filter is `Accepts`; `Discover` models `findUnformattedFiles`.
- `watermark.dfy`: module `Watermark`. `LastFileStamp` is `getLastFileStamp`'s loop as a
  left fold.
- `naming.dfy`: module `Naming`. `getNewFilename`: separator replacement, the 17-digit
  `Stamp`, and the `_FORMATTED` fallback.
- `formatting.dfy`: module `Formatting`. `formatJsonFile` gives one of three outcomes:
  `Written`, `IoError` (caught and logged) or `ParseError` (not caught). `FormatFiles` models
  the loop, which stops at the first `ParseError`.
- `pipeline.dfy`: module `Pipeline`. The constructor's step order as `Run`, plus lemmas that
  relate consecutive runs: at-most-once, re-run idempotence and a watermark that never
  decreases.

The current instant (`Env.now`) and the 17-digit rendering of each naming instant
(`Env.clock`) are parameters. So are the directory listing (`Env.listing`, `None` when
`listFiles` returns null) and the files' contents at formatting time (`Env.fs`).

Three behaviours of the code are worth stating plainly:

- Per-file isolation covers only `IOException` (`JsonFileFormatter.java:142`). A document
  the reader cannot parse raises an unchecked exception. That exception escapes
  `formatJsonFile` and ends the batch, after the watermark was already saved.
  `ExampleMalformedMiddle` shows three files with a malformed middle one: the first is
  written, and the third is never reached.
- The first run's watermark is the current instant (`JsonFileFormatter.java:85`). A file
  dated in the future is therefore still picked up on the first run (`FirstRunWatermark`
  states the precise condition).
- The code keeps no report of a run. `RunResult` records what a run does observably: the
  persisted store, the discovered files, each file's outcome and the fatal error, if any.

## Model

| member | source | states |
|---|---|---|
| Basics.EndsWith | src/main/java/com/mike/test/JsonFileFormatter.java:97 | `String.endsWith`: s ends with suffix iff the suffix is no longer than s and equals as many final characters of s as it has, case-sensitively; the empty suffix always matches |
| Json.Read | src/main/java/com/mike/test/JsonFileFormatter.java:133 | `read()` yields exactly the parsed document, and only when its top level is an array or object; otherwise the reader throws |
| Json.AemPathFound | src/main/java/com/mike/test/JsonFileFormatter.java:150 | every array whose second element is an object holding a string under `X-AEM-PATH` yields that string, whatever the first element and any further elements are |
| Json.AemPath | src/main/java/com/mike/test/JsonFileFormatter.java:150 | a path is read only from a top-level array of at least two elements whose second element is an object mapping `X-AEM-PATH` to that string; every other shape, like every throw of the call chain, gives no path |
| Discovery.Accepts | src/main/java/com/mike/test/JsonFileFormatter.java:96-97 | the listing filter: a file passes iff its modification time is strictly after the watermark and its name ends with `.json` |
| Discovery.Discover | src/main/java/com/mike/test/JsonFileFormatter.java:90-104 | a file is in the batch iff it is in the listing, its modification time is strictly greater than the watermark, and its name ends with `.json`; the batch is no longer than the listing |
| Discovery.DiscoverAppend | src/main/java/com/mike/test/JsonFileFormatter.java:93-103 | filtering distributes over concatenation of listings, so the batch keeps the listing's relative order |
| Discovery.DiscoverNothing | src/main/java/com/mike/test/JsonFileFormatter.java:93-103 | when the filter accepts no entry, the result is the empty batch, not an error |
| Discovery.StrictBoundary | src/main/java/com/mike/test/JsonFileFormatter.java:96-97 | a `.json` file stamped exactly at the watermark is excluded; one a millisecond later is included |
| Discovery.DiscoverAntitone | src/main/java/com/mike/test/JsonFileFormatter.java:96 | raising the watermark never adds files to the batch |
| Watermark.LastFileStamp | src/main/java/com/mike/test/JsonFileFormatter.java:107-117 | the new watermark is at least the old one and at least every discovered file's time, and it is either the old watermark or some discovered file's time |
| Watermark.LastFileStampIsLeast | src/main/java/com/mike/test/JsonFileFormatter.java:107-117 | the new watermark is the least bound that is above both the old watermark and every file's time, that is, their maximum |
| Watermark.LastFileStampEmpty | src/main/java/com/mike/test/JsonFileFormatter.java:108-113 | an empty batch leaves the watermark unchanged |
| Watermark.AdvancedExcludesBatch | src/main/java/com/mike/test/JsonFileFormatter.java:96-116 | no discovered file passes the filter again under the advanced watermark |
| Watermark.RediscoverIsEmpty | src/main/java/com/mike/test/JsonFileFormatter.java:96-116 | filtering the same listing again with the advanced watermark finds nothing |
| Naming.ReplaceChar | src/main/java/com/mike/test/JsonFileFormatter.java:152 | `String.replace` of one character keeps the length, puts the replacement at every occurrence and leaves every other character alone |
| Naming.Sanitize | src/main/java/com/mike/test/JsonFileFormatter.java:152 | the derived prefix has the path's length and contains no `\` or `/`; each separator becomes `-` and every other character is kept |
| Naming.NewFilename | src/main/java/com/mike/test/JsonFileFormatter.java:147-156 | with a readable AEM path the name is the path with separators turned into `-`, then the 17-digit stamp, then `.json`, and no separator occurs before the stamp; otherwise it is exactly the input name plus `_FORMATTED` |
| Naming.ExtensionRevealsBranch | src/main/java/com/mike/test/JsonFileFormatter.java:152-154 | the name ends in `.json` iff the AEM path was read, so no fallback name can ever look like a derived one |
| Naming.SanitizeFixedPoint | src/main/java/com/mike/test/JsonFileFormatter.java:152 | replacement leaves a path unchanged iff the path has no separators |
| Naming.SanitizeIdempotent | src/main/java/com/mike/test/JsonFileFormatter.java:152 | replacing separators a second time changes nothing |
| Naming.ExampleDerivedName | src/main/java/com/mike/test/JsonFileFormatter.java:150-152 | `[header, {"X-AEM-PATH": "a/b\c"}]` gives `a-b-c` + stamp + `.json` |
| Naming.ExampleFallbackName | src/main/java/com/mike/test/JsonFileFormatter.java:153-154 | a top-level object gives the input name plus `_FORMATTED` |
| Formatting.FormatJsonFile | src/main/java/com/mike/test/JsonFileFormatter.java:129-145 | a written copy holds exactly the value parsed from the input, under the derived name, in an output that could be opened; a parse failure happens iff the file opens and its top level is not an array or object; an I/O error happens iff the input cannot be opened, or it parses but the output cannot be opened; so a file that opens, parses and has a writable target is always written |
| Formatting.UntilParseError | src/main/java/com/mike/test/JsonFileFormatter.java:124-126 | the outcomes that happen are a prefix of the outcomes the files would meet; no parse failure occurs before the last one that happens; the loop ends early only on a parse failure |
| Formatting.UntilParseErrorComplete | src/main/java/com/mike/test/JsonFileFormatter.java:124-126 | every outcome happens iff no outcome except possibly the last is a parse failure |
| Formatting.FormatFiles | src/main/java/com/mike/test/JsonFileFormatter.java:119-127 | files are handled in order, each exactly as `formatJsonFile` handles it; no parse failure occurs before the last handled file; the loop stops early only right after a parse failure |
| Formatting.IoErrorIsIsolated | src/main/java/com/mike/test/JsonFileFormatter.java:124-144 | an I/O error on one file does not stop the next file from being formatted |
| Formatting.BatchCompleteIffParsed | src/main/java/com/mike/test/JsonFileFormatter.java:124-126 | every file is reached iff no file before the last one fails to parse |
| Formatting.ExampleMalformedMiddle | src/main/java/com/mike/test/JsonFileFormatter.java:124-145 | for three files with a malformed middle one, the first is written, the second ends the batch, and the third is never formatted |
| Pipeline.Load | src/main/java/com/mike/test/JsonFileFormatter.java:61-72 | an existing store is used as it is; a missing store is replaced by defaults whose watermark is the current instant |
| Pipeline.Run | src/main/java/com/mike/test/JsonFileFormatter.java:40-59 | an unparseable watermark aborts, and so does a failed listing (iff the watermark loaded), both before the advanced watermark is saved or any file is formatted (a first run has already saved its defaults); otherwise the run discovers exactly the filtered listing, persists the advanced watermark of that batch, and formats that batch with the loop; the persisted watermark is no lower than the loaded one and covers every discovered file; a run either handles every discovered file without a parse failure, or ends at the file that failed to parse |
| Pipeline.WatermarkIgnoresFormatting | src/main/java/com/mike/test/JsonFileFormatter.java:47-58 | the persisted watermark and the batch do not depend on file contents, output failures or stamps |
| Pipeline.ParseFailureAfterSave | src/main/java/com/mike/test/JsonFileFormatter.java:52-58 | when a parse failure ends the batch, the saved watermark already excludes every discovered file, including the files never reached |
| Pipeline.AtMostOnce | src/main/java/com/mike/test/JsonFileFormatter.java:47-58 | a file discovered by one run is never discovered by the next run, whatever its formatting outcome and whatever that next run lists |
| Pipeline.NewerFileIsDiscovered | src/main/java/com/mike/test/JsonFileFormatter.java:52-58 | the converse: a listed `.json` file stamped after the watermark a run persisted is discovered by the next run |
| Pipeline.RerunIsIdempotent | src/main/java/com/mike/test/JsonFileFormatter.java:40-59 | a second run over the same listing discovers and formats nothing and leaves the persisted store unchanged |
| Pipeline.FirstRunWatermark | src/main/java/com/mike/test/JsonFileFormatter.java:84-85 | with no store, when no listed file is newer than the current instant, the first run discovers nothing and persists that instant |
| Pipeline.RunNeverLowers | src/main/java/com/mike/test/JsonFileFormatter.java:52-55 | a run started from a readable watermark persists a readable one no lower |
| Pipeline.Persisted | src/main/java/com/mike/test/JsonFileFormatter.java:40-59 | the stores persisted by a sequence of runs, each run starting from the store the previous one persisted |
| Pipeline.WatermarkNeverDecreases | src/main/java/com/mike/test/JsonFileFormatter.java:52-55 | over any sequence of runs, the persisted watermark never decreases, and once readable it stays readable |

## Left out

- Reading and writing the XML properties file (`loadProperties`, `saveProperties`) and the
  default directory paths. The store is reduced to its watermark. A `lastUpdate` that is
  missing, or that the load failed to fill, is modelled like an unparseable one
  (`Stored(None)`). Save failures, which the code only logs, are not modelled: every save
  succeeds.
- `SimpleDateFormat`: rendering and parsing `lastUpdate`, and rendering the 17-digit name
  stamp. The watermark is kept as milliseconds, and saving then loading it is assumed to be
  exact. The stamp arrives already rendered.
- JSON text parsing and the pretty-printer's byte layout (`javax.json`). A document is a
  parsed value or `Malformed`, and the written output is the value that was read.
- Directory listing, `mkdirs`, readers and writers, logging and `System.out`. These are
  parameters (`Env.listing`, `FileSystem`).
- Formatting.FormatJsonFile: both reads of a file see the same contents. The code reads the
  file twice, and a change between the two reads is not modelled.
- Formatting.FormatJsonFile: an exception thrown while writing, after the output file is
  open, is not modelled. The writer reports it as an unchecked exception.
- Naming.NewFilename: a derived name that the platform rejects as a path
  (`InvalidPathException`, which falls back to `_FORMATTED`) is not modelled. Every derived
  name is treated as valid.
- Watermark.LastFileStamp: the code calls `lastModified()` twice, once in the filter and
  once in `getLastFileStamp`. The model reads each file's time once (`FileEntry.modTime`).
  A file touched or deleted between the two calls can move the saved watermark differently
  from the model, and at-most-once relies on the single read.
- Discovery.Discover: `long` modification times are modelled as unbounded integers. The
  filter and the maximum only compare values and never add them, so no wrap-around is lost.

=== FILE: basics.dfy ===
/** Small shared vocabulary: an optional value and Java's `String.endsWith`. */
module Basics {

  /** A value that may be absent; used wherever the program meets null or an exception. */
  datatype Option<+T> = None | Some(value: T)

  /** `s.endsWith(suffix)`: the last `|suffix|` characters of `s` are exactly `suffix`. */
  predicate EndsWith(s: string, suffix: string)
  {
    |suffix| <= |s| && s[|s| - |suffix|..] == suffix
  }
}

=== FILE: discovery.dfy ===
/**
 * File discovery (`findUnformattedFiles`): the directory listing filtered down to the
 * `.json` files modified strictly after the watermark, in listing order.
 */
module Discovery {
  import opened Basics

  /** A directory entry as the filter sees it: its name and `lastModified()` in milliseconds. */
  datatype FileEntry = FileEntry(name: string, modTime: int)

  /** The extension, compared case-sensitively, that marks a file as JSON input. */
  const JsonExtension: string := ".json"

  /** The `FileFilter` of the listing: newer than the watermark, and a `.json` name. */
  predicate Accepts(f: FileEntry, watermark: int)
  {
    f.modTime > watermark && EndsWith(f.name, JsonExtension)
  }

  /** The entries of `listing` the filter accepts, in the order the listing returned them. */
  function Discover(listing: seq<FileEntry>, watermark: int): (r: seq<FileEntry>)
    ensures |r| <= |listing|
    ensures forall f :: f in r <==> f in listing && f.modTime > watermark && EndsWith(f.name, JsonExtension)
  {
    if |listing| == 0 then []
    else if Accepts(listing[0], watermark) then [listing[0]] + Discover(listing[1..], watermark)
    else Discover(listing[1..], watermark)
  }

  /** Discovery distributes over concatenation, so it keeps the listing's relative order. */
  lemma {:induction false} DiscoverAppend(a: seq<FileEntry>, b: seq<FileEntry>, watermark: int)
    ensures Discover(a + b, watermark) == Discover(a, watermark) + Discover(b, watermark)
  {
    if |a| == 0 {
      assert a + b == b;
    } else {
      assert (a + b)[1..] == a[1..] + b;
      DiscoverAppend(a[1..], b, watermark);
    }
  }

  /** A listing in which the filter accepts nothing yields an empty batch, not an error. */
  lemma DiscoverNothing(listing: seq<FileEntry>, watermark: int)
    requires forall f :: f in listing ==> !Accepts(f, watermark)
    ensures Discover(listing, watermark) == []
  {
  }

  /**
   * The boundary is strict: a `.json` file stamped exactly at the watermark is not
   * discovered, and one stamped a millisecond later is.
   */
  lemma StrictBoundary(name: string, watermark: int)
    requires EndsWith(name, JsonExtension)
    ensures Discover([FileEntry(name, watermark)], watermark) == []
    ensures Discover([FileEntry(name, watermark + 1)], watermark) == [FileEntry(name, watermark + 1)]
  {
  }

  /** Raising the watermark can only shrink what is discovered. */
  lemma DiscoverAntitone(listing: seq<FileEntry>, low: int, high: int)
    requires low <= high
    ensures forall f :: f in Discover(listing, high) ==> f in Discover(listing, low)
  {
  }
}

=== FILE: formatting.dfy ===
/**
 * Per-file formatting (`formatJsonFile`) and the batch loop over the discovered files
 * (`formatFiles`). Only `IOException` is caught per file; a document the reader cannot
 * parse throws an unchecked exception that ends the whole batch.
 */
module Formatting {
  import opened Basics
  import opened Json
  import opened Discovery
  import opened Naming

  /**
   * The file system as formatting meets it: the text of each readable input file by name
   * (a name that is absent cannot be opened for reading), and the output names that cannot
   * be opened for writing.
   */
  datatype FileSystem = FileSystem(contents: map<string, Document>, unwritable: set<string>)

  /** What happened to one file: a formatted copy written, an I/O error logged, or a parse failure thrown. */
  datatype FileOutcome = Written(target: string, value: JsonValue) | IoError | ParseError

  /**
   * One file: open it (I/O error if it cannot be), derive the output name, read the
   * document (parse failure if it is not an array or object), then open the output (I/O
   * error if that fails) and write the value that was read.
   */
  function FormatJsonFile(file: FileEntry, fs: FileSystem, stamp: Stamp): (r: FileOutcome)
    ensures r.Written? ==> file.name in fs.contents && fs.contents[file.name] == Parsed(r.value)
    ensures r.Written? ==> IsStructure(r.value) && r.target !in fs.unwritable
    ensures r.Written? ==> r.target == NewFilename(fs.contents[file.name], file.name, stamp)
    ensures r.ParseError? <==> file.name in fs.contents && Read(fs.contents[file.name]).None?
    ensures r.IoError? <==> (file.name !in fs.contents
      || (Read(fs.contents[file.name]).Some? && NewFilename(fs.contents[file.name], file.name, stamp) in fs.unwritable))
  {
    if file.name !in fs.contents then IoError
    else
      var doc := fs.contents[file.name];
      var target := NewFilename(doc, file.name, stamp);
      match Read(doc)
      case None => ParseError
      case Some(st) => if target in fs.unwritable then IoError else Written(target, st)
  }

  /** What each file meets when the loop reaches it; no file's outcome depends on another's. */
  function Outcomes(files: seq<FileEntry>, fs: FileSystem, clock: nat -> Stamp): seq<FileOutcome>
  {
    seq(|files|, k requires 0 <= k < |files| => FormatJsonFile(files[k], fs, clock(k)))
  }

  /**
   * The loop's early exit: an uncaught parse failure ends it, so the outcomes that happen
   * are those up to and including the first parse failure.
   */
  function UntilParseError(outcomes: seq<FileOutcome>): (r: seq<FileOutcome>)
    ensures |r| <= |outcomes| && r == outcomes[..|r|]
    ensures 0 < |r| ==> ParseError !in r[..|r| - 1]
    ensures |r| < |outcomes| ==> 0 < |r| && r[|r| - 1] == ParseError
  {
    if |outcomes| == 0 then []
    else if outcomes[0] == ParseError then [ParseError]
    else
      var rest := UntilParseError(outcomes[1..]);
      assert 0 < |rest| ==> ([outcomes[0]] + rest)[..|rest|] == [outcomes[0]] + rest[..|rest| - 1];
      [outcomes[0]] + rest
  }

  /** Every outcome happens exactly when none but possibly the last is a parse failure. */
  lemma UntilParseErrorComplete(outcomes: seq<FileOutcome>)
    requires 0 < |outcomes|
    ensures |UntilParseError(outcomes)| == |outcomes| <==> ParseError !in outcomes[..|outcomes| - 1]
  {
  }

  /**
   * `formatFiles`: the files are handled in order, each as `formatJsonFile` handles it,
   * until one throws a parse failure; files after it are never reached.
   */
  function FormatFiles(files: seq<FileEntry>, fs: FileSystem, clock: nat -> Stamp): (r: seq<FileOutcome>)
    ensures |r| <= |files|
    ensures forall k :: 0 <= k < |r| ==> r[k] == FormatJsonFile(files[k], fs, clock(k))
    ensures 0 < |r| ==> ParseError !in r[..|r| - 1]
    ensures |r| < |files| ==> 0 < |r| && r[|r| - 1] == ParseError
    ensures ParseError in r ==> r[|r| - 1] == ParseError
  {
    UntilParseError(Outcomes(files, fs, clock))
  }

  /** An I/O error on one file does not stop the loop: the next file is still formatted. */
  lemma IoErrorIsIsolated(files: seq<FileEntry>, fs: FileSystem, clock: nat -> Stamp, k: nat)
    requires k + 1 < |files|
    requires k < |FormatFiles(files, fs, clock)| && FormatFiles(files, fs, clock)[k].IoError?
    ensures k + 1 < |FormatFiles(files, fs, clock)|
  {
  }

  /** The loop reaches every file exactly when no file before the last fails to parse. */
  lemma BatchCompleteIffParsed(files: seq<FileEntry>, fs: FileSystem, clock: nat -> Stamp)
    ensures |FormatFiles(files, fs, clock)| == |files|
       <==> forall k :: 0 <= k < |files| - 1 ==> !FormatJsonFile(files[k], fs, clock(k)).ParseError?
  {
  }

  /**
   * Three files of which the middle one is not JSON: the first is written, the second
   * ends the batch, the third is never formatted.
   */
  lemma ExampleMalformedMiddle(a: FileEntry, b: FileEntry, c: FileEntry, va: JsonValue, vc: JsonValue, clock: nat -> Stamp)
    requires a.name != b.name && b.name != c.name && a.name != c.name
    requires IsStructure(va) && IsStructure(vc)
    ensures var fs := FileSystem(map[a.name := Parsed(va), b.name := Malformed, c.name := Parsed(vc)], {});
      var r := FormatFiles([a, b, c], fs, clock);
      |r| == 2 && r[0].Written? && r[0].value == va && r[1] == ParseError
  {
  }
}

=== FILE: json.dfy ===
/**
 * The parsed JSON values the formatter reads, and the reader calls it makes on them:
 * `readArray().getJsonObject(1).getString("X-AEM-PATH")` when deriving a file name, and
 * `read()` when copying the document. Byte-level parsing is not modelled: a file's text
 * is either a parsed value or `Malformed`.
 */
module Json {
  import opened Basics

  /** A JSON value; numbers are kept as a decimal (unscaled value and scale). */
  datatype JsonValue =
    | JNull
    | JBool(b: bool)
    | JNumber(unscaled: int, scale: int)
    | JString(str: string)
    | JArray(elems: seq<JsonValue>)
    | JObject(members: map<string, JsonValue>)

  /** What a reader finds in one file: a JSON value, or text that is not JSON. */
  datatype Document = Malformed | Parsed(value: JsonValue)

  /** The key under which a document carries its logical AEM path. */
  const AemPathKey: string := "X-AEM-PATH"

  /** A JSON structure is an array or an object: what `JsonReader.read()` can return. */
  predicate IsStructure(v: JsonValue)
  {
    v.JArray? || v.JObject?
  }

  /**
   * `reader.read()`: the top-level structure of the document. Text that is not JSON, or
   * whose top level is a scalar, makes the reader throw, modelled as `None`.
   */
  function Read(doc: Document): (r: Option<JsonValue>)
    ensures r.Some? ==> doc == Parsed(r.value) && IsStructure(r.value)
    ensures doc.Parsed? && IsStructure(doc.value) ==> r.Some?
  {
    match doc
    case Parsed(v) => if IsStructure(v) then Some(v) else None
    case Malformed => None
  }

  /**
   * `reader.readArray().getJsonObject(1).getString(AemPathKey)`. Every way the chain can
   * throw is `None`: unparseable text or a top level that is not an array (`readArray`),
   * fewer than two elements (`IndexOutOfBoundsException`), a second element that is not an
   * object (`ClassCastException`), a missing key (`NullPointerException`) or a value that
   * is not a string (`ClassCastException`).
   */
  function AemPath(doc: Document): (r: Option<string>)
    ensures r.Some? ==> doc.Parsed? && doc.value.JArray? && 2 <= |doc.value.elems|
    ensures r.Some? ==> doc.value.elems[1].JObject? && AemPathKey in doc.value.elems[1].members
    ensures r.Some? ==> doc.value.elems[1].members[AemPathKey] == JString(r.value)
  {
    match doc
    case Malformed => None
    case Parsed(top) =>
      if !top.JArray? || |top.elems| < 2 then None
      else
        match top.elems[1]
        case JObject(members) =>
          if AemPathKey in members && members[AemPathKey].JString?
          then Some(members[AemPathKey].str)
          else None
        case _ => None
  }

  /** Any array whose second element is an object holding a string under the key yields that string. */
  lemma AemPathFound(header: JsonValue, obj: map<string, JsonValue>, rest: seq<JsonValue>, path: string)
    requires AemPathKey in obj && obj[AemPathKey] == JString(path)
    ensures AemPath(Parsed(JArray([header, JObject(obj)] + rest))) == Some(path)
  {
  }

}

=== FILE: naming.dfy ===
/**
 * Output-name derivation (`getNewFilename`). The name comes from the document's AEM path
 * with every `\` and `/` turned into `-`, followed by a 17-digit timestamp and `.json`;
 * when the path cannot be read the name is the input file's name plus `_FORMATTED`.
 */
module Naming {
  import opened Basics
  import opened Json

  predicate IsDigit(c: char)
  {
    '0' <= c <= '9'
  }

  /**
   * The current instant rendered by the pattern `yyyyMMddHHmmssSSS`: seventeen decimal
   * digits. The rendering itself (calendar, time zone) is supplied by the caller.
   */
  type Stamp = s: string | |s| == 17 && forall i :: 0 <= i < |s| ==> IsDigit(s[i])
    witness "00000000000000000"

  /** The path separators the derivation removes. */
  predicate IsSeparator(c: char)
  {
    c == '\\' || c == '/'
  }

  const Dash: char := '-'
  const OutputExtension: string := ".json"
  const FallbackSuffix: string := "_FORMATTED"

  /** Java's `String.replace` with one-character arguments: every `from` becomes `to`. */
  function ReplaceChar(s: string, from: char, to: char): (r: string)
    ensures |r| == |s|
    ensures forall i :: 0 <= i < |s| && s[i] == from ==> r[i] == to
    ensures forall i :: 0 <= i < |s| && s[i] != from ==> r[i] == s[i]
  {
    if |s| == 0 then ""
    else [if s[0] == from then to else s[0]] + ReplaceChar(s[1..], from, to)
  }

  /** `path.replace("\\", "-").replace("/", "-")`. */
  function Sanitize(path: string): (r: string)
    ensures |r| == |path|
    ensures forall i :: 0 <= i < |r| ==> !IsSeparator(r[i])
    ensures forall i :: 0 <= i < |path| && IsSeparator(path[i]) ==> r[i] == Dash
    ensures forall i :: 0 <= i < |path| && !IsSeparator(path[i]) ==> r[i] == path[i]
  {
    ReplaceChar(ReplaceChar(path, '\\', Dash), '/', Dash)
  }

  /**
   * `name` is the derived form of `path` at instant `stamp`: the path with separators
   * replaced by dashes, then the stamp, then the `.json` extension.
   */
  ghost predicate DerivedFrom(name: string, path: string, stamp: Stamp)
  {
    && |name| == |path| + |stamp| + |OutputExtension|
    && (forall i :: 0 <= i < |path| ==> name[i] == (if IsSeparator(path[i]) then Dash else path[i]))
    && name[|path|..|path| + |stamp|] == stamp
    && EndsWith(name, OutputExtension)
  }

  /**
   * The file name (relative to the destination directory) of the formatted copy of the
   * input file `name` whose text is `doc`, when the current instant renders as `stamp`.
   */
  function NewFilename(doc: Document, name: string, stamp: Stamp): (r: string)
    ensures AemPath(doc).Some? ==> DerivedFrom(r, AemPath(doc).value, stamp)
    ensures AemPath(doc).Some? ==> forall i :: 0 <= i < |r| - |stamp| - |OutputExtension| ==> !IsSeparator(r[i])
    ensures AemPath(doc).None? ==> r == name + FallbackSuffix
  {
    match AemPath(doc)
    case Some(path) =>
      var r := Sanitize(path) + stamp + OutputExtension;
      assert r[|path|..|path| + |stamp|] == stamp;
      assert r[|r| - |OutputExtension|..] == OutputExtension;
      r
    case None => name + FallbackSuffix
  }

  /**
   * The two branches never produce the same shape of name: a derived name always ends in
   * `.json`, a fallback name never does, whatever the input file was called.
   */
  lemma ExtensionRevealsBranch(doc: Document, name: string, stamp: Stamp)
    ensures EndsWith(NewFilename(doc, name, stamp), OutputExtension) <==> AemPath(doc).Some?
  {
    if AemPath(doc).None? {
      var r := name + FallbackSuffix;
      assert r[|r| - 1] == 'D';
      assert r[|r| - |OutputExtension|..][|OutputExtension| - 1] == r[|r| - 1];
    }
  }

  /** A path already free of separators is left as it is, and only such a path is. */
  lemma SanitizeFixedPoint(path: string)
    ensures Sanitize(path) == path <==> forall i :: 0 <= i < |path| ==> !IsSeparator(path[i])
  {
  }

  /** Sanitising twice is the same as sanitising once. */
  lemma SanitizeIdempotent(path: string)
    ensures Sanitize(Sanitize(path)) == Sanitize(path)
  {
  }

  /** The worked case `[header, {"X-AEM-PATH": "a/b\c"}]` gives `a-b-c` + stamp + `.json`. */
  lemma ExampleDerivedName(header: JsonValue, name: string, stamp: Stamp)
    ensures NewFilename(Parsed(JArray([header, JObject(map[AemPathKey := JString("a/b\\c")])])), name, stamp)
         == "a-b-c" + stamp + ".json"
  {
  }

  /** Any other top-level shape, here an object instead of an array, falls back. */
  lemma ExampleFallbackName(obj: map<string, JsonValue>, name: string, stamp: Stamp)
    ensures NewFilename(Parsed(JObject(obj)), name, stamp) == name + "_FORMATTED"
  {
  }
}

=== FILE: pipeline.dfy ===
/**
 * One run of the formatter, in the order its constructor takes the steps: load the stored
 * watermark, list and filter the source directory, advance the watermark, persist it, and
 * only then format the discovered files one by one.
 */
module Pipeline {
  import opened Basics
  import opened Discovery
  import opened Watermark
  import opened Naming
  import opened Formatting

  /**
   * The persisted configuration, reduced to its watermark: no configuration file yet, or a
   * stored `lastUpdate` that either parses to a time in milliseconds or does not.
   */
  datatype Store = Absent | Stored(lastUpdate: Option<int>)

  /**
   * What one run meets from outside: the current instant in milliseconds, the listing of
   * the source directory (`None` when it cannot be listed), the file system seen while
   * formatting, and the stamp rendered for the k-th discovered file.
   */
  datatype Env = Env(now: int, listing: Option<seq<FileEntry>>, fs: FileSystem, clock: nat -> Stamp)

  /** The errors that end a run early. */
  datatype Fatal = UnparseableLastUpdate | ListingFailed | MalformedJson(file: string)

  /** The persisted state after a run, the files it discovered and what happened to each one it reached. */
  datatype RunResult = RunResult(
    persisted: Store,
    discovered: seq<FileEntry>,
    outcomes: seq<FileOutcome>,
    fatal: Option<Fatal>)

  /** `loadProperties`: with no configuration file, the defaults (watermark = now) are saved first. */
  function Load(store: Store, now: int): (r: Store)
    ensures r.Stored?
    ensures store.Stored? ==> r == store
    ensures store.Absent? ==> r.lastUpdate == Some(now)
  {
    match store
    case Absent => Stored(Some(now))
    case Stored(_) => store
  }

  /** The run the constructor performs. */
  function Run(store: Store, env: Env): (r: RunResult)
    ensures r.persisted.Stored?
    ensures |r.outcomes| <= |r.discovered|
    ensures r.fatal == Some(UnparseableLastUpdate) <==> Load(store, env.now).lastUpdate.None?
    ensures r.fatal == Some(UnparseableLastUpdate) || r.fatal == Some(ListingFailed) ==>
      r.persisted == Load(store, env.now) && r.discovered == [] && r.outcomes == []
    ensures Load(store, env.now).lastUpdate.Some? ==>
      r.persisted.lastUpdate.Some? && r.persisted.lastUpdate.value >= Load(store, env.now).lastUpdate.value
    ensures r.persisted.lastUpdate.Some? ==> forall f :: f in r.discovered ==> f.modTime <= r.persisted.lastUpdate.value
    ensures r.fatal.None? ==> |r.outcomes| == |r.discovered| && ParseError !in r.outcomes
    ensures r.fatal.Some? && r.fatal.value.MalformedJson? ==>
      0 < |r.outcomes| && r.outcomes[|r.outcomes| - 1] == ParseError
      && r.fatal.value.file == r.discovered[|r.outcomes| - 1].name
    ensures Load(store, env.now).lastUpdate.Some? ==> (env.listing.None? <==> r.fatal == Some(ListingFailed))
    ensures Load(store, env.now).lastUpdate.Some? && env.listing.Some? ==>
      var watermark := Load(store, env.now).lastUpdate.value;
      && r.discovered == Discover(env.listing.value, watermark)
      && r.persisted == Stored(Some(LastFileStamp(watermark, r.discovered)))
      && r.outcomes == FormatFiles(r.discovered, env.fs, env.clock)
  {
    var loaded := Load(store, env.now);
    match loaded.lastUpdate
    case None => RunResult(loaded, [], [], Some(UnparseableLastUpdate))
    case Some(watermark) =>
      match env.listing
      case None => RunResult(loaded, [], [], Some(ListingFailed))
      case Some(entries) =>
        var found := Discover(entries, watermark);
        var next := LastFileStamp(watermark, found);
        var outcomes := FormatFiles(found, env.fs, env.clock);
        var fatal := if 0 < |outcomes| && outcomes[|outcomes| - 1].ParseError?
          then Some(MalformedJson(found[|outcomes| - 1].name))
          else None;
        RunResult(Stored(Some(next)), found, outcomes, fatal)
  }

  /**
   * The watermark a run persists depends only on the stored state, the clock at load time
   * and the listing: what formatting meets (file contents, output failures, stamps) cannot move it.
   */
  lemma WatermarkIgnoresFormatting(store: Store, env1: Env, env2: Env)
    requires env1.now == env2.now && env1.listing == env2.listing
    ensures Run(store, env1).persisted == Run(store, env2).persisted
    ensures Run(store, env1).discovered == Run(store, env2).discovered
  {
  }

  /**
   * A parse failure ends the batch after the watermark was advanced past every discovered
   * file, including those the batch never reached.
   */
  lemma ParseFailureAfterSave(store: Store, env: Env)
    requires Run(store, env).fatal.Some? && Run(store, env).fatal.value.MalformedJson?
    ensures var r := Run(store, env);
      r.persisted.lastUpdate.Some?
      && (forall f :: f in r.discovered ==> !Accepts(f, r.persisted.lastUpdate.value))
      && |r.outcomes| <= |r.discovered|
  {
  }

  /**
   * At most once: whatever a run discovered, a later run started from what it persisted
   * does not discover again, whether or not it was formatted and whatever the listing is.
   */
  lemma AtMostOnce(store: Store, env1: Env, env2: Env)
    ensures var r1 := Run(store, env1);
      forall f :: f in r1.discovered ==> f !in Run(r1.persisted, env2).discovered
  {
  }

  /**
   * The other half of at-most-once: a `.json` file stamped after the watermark a run
   * persisted is discovered by the next run that lists it.
   */
  lemma NewerFileIsDiscovered(store: Store, env1: Env, env2: Env, f: FileEntry)
    requires Run(store, env1).persisted.lastUpdate.Some?
    requires env2.listing.Some? && f in env2.listing.value
    requires EndsWith(f.name, JsonExtension) && f.modTime > Run(store, env1).persisted.lastUpdate.value
    ensures f in Run(Run(store, env1).persisted, env2).discovered
  {
  }

  /**
   * Re-running over an unchanged listing discovers and formats nothing and leaves the
   * persisted watermark as it was.
   */
  lemma RerunIsIdempotent(store: Store, env1: Env, env2: Env)
    requires env2.listing == env1.listing
    ensures var r1 := Run(store, env1);
      var r2 := Run(r1.persisted, env2);
      r2.discovered == [] && r2.outcomes == [] && r2.persisted == r1.persisted
  {
  }

  /**
   * The first run starts from the current instant: when no listed file is newer than now,
   * it discovers nothing and persists now as the watermark.
   */
  lemma FirstRunWatermark(env: Env)
    requires env.listing.Some?
    requires forall f :: f in env.listing.value ==> f.modTime <= env.now
    ensures Run(Absent, env).discovered == []
    ensures Run(Absent, env).persisted == Stored(Some(env.now))
  {
  }

  /** `later` holds a readable watermark no lower than `earlier`'s, whenever `earlier`'s is readable. */
  predicate NoLower(earlier: Store, later: Store)
    requires earlier.Stored? && later.Stored?
  {
    earlier.lastUpdate.Some? ==> later.lastUpdate.Some? && earlier.lastUpdate.value <= later.lastUpdate.value
  }

  /** A single run started from a stored watermark persists one no lower. */
  lemma RunNeverLowers(store: Store, env: Env)
    requires store.Stored?
    ensures NoLower(store, Run(store, env).persisted)
  {
  }

  /** The stores persisted after each of a sequence of runs, each starting from the one before. */
  function Persisted(store: Store, envs: seq<Env>): (r: seq<Store>)
    ensures |r| == |envs|
    ensures forall k :: 0 <= k < |r| ==> r[k].Stored?
    ensures 0 < |envs| ==> r[0] == Run(store, envs[0]).persisted
    ensures forall k :: 0 < k < |r| ==> r[k] == Run(r[k - 1], envs[k]).persisted
    decreases |envs|
  {
    if |envs| == 0 then []
    else
      var next := Run(store, envs[0]).persisted;
      var rest := Persisted(next, envs[1..]);
      var r := [next] + rest;
      assert forall k :: 0 < k < |r| ==> r[k] == rest[k - 1] && envs[k] == envs[1..][k - 1];
      r
  }

  /** A chain of stores each no lower than the one before is no lower anywhere further on. */
  lemma {:induction false} ChainNeverLowers(r: seq<Store>)
    requires forall k :: 0 <= k < |r| ==> r[k].Stored?
    requires forall k :: 0 < k < |r| ==> NoLower(r[k - 1], r[k])
    ensures forall i, j :: 0 <= i <= j < |r| ==> NoLower(r[i], r[j])
  {
    if 0 < |r| {
      ChainNeverLowers(r[..|r| - 1]);
      forall i, j | 0 <= i <= j < |r|
        ensures NoLower(r[i], r[j])
      {
        if j == |r| - 1 && i < j {
          assert NoLower(r[i], r[j - 1]);
        }
      }
    }
  }

  /**
   * Over any sequence of runs the persisted watermark never decreases, and once it is
   * readable it stays readable.
   */
  lemma WatermarkNeverDecreases(store: Store, envs: seq<Env>)
    ensures var r := Persisted(store, envs);
      forall i, j :: 0 <= i <= j < |r| ==> NoLower(r[i], r[j])
  {
    var r := Persisted(store, envs);
    forall k | 0 < k < |r|
      ensures NoLower(r[k - 1], r[k])
    {
      RunNeverLowers(r[k - 1], envs[k]);
    }
    ChainNeverLowers(r);
  }
}

=== FILE: watermark.dfy ===
/**
 * Watermark advancement (`getLastFileStamp`): starting from the stored watermark, the loop
 * keeps the largest modification time among the discovered files.
 */
module Watermark {
  import opened Discovery

  /**
   * The loop over the discovered files, as a left fold: `maxTime` starts at the watermark
   * and is replaced by a file's time whenever that time is strictly larger.
   */
  function LastFileStamp(watermark: int, files: seq<FileEntry>): (r: int)
    ensures r >= watermark
    ensures forall f :: f in files ==> f.modTime <= r
    ensures r == watermark || exists f :: f in files && f.modTime == r
    decreases |files|
  {
    if |files| == 0 then watermark
    else
      var maxTime := if files[0].modTime > watermark then files[0].modTime else watermark;
      var r := LastFileStamp(maxTime, files[1..]);
      assert forall f :: f in files[1..] ==> f in files;
      assert files[0] in files;
      r
  }

  /** The advanced watermark is the least bound above the old one and every file's time. */
  lemma LastFileStampIsLeast(watermark: int, files: seq<FileEntry>, bound: int)
    requires watermark <= bound
    requires forall f :: f in files ==> f.modTime <= bound
    ensures LastFileStamp(watermark, files) <= bound
  {
  }

  /** With nothing discovered the watermark stays where it was. */
  lemma LastFileStampEmpty(watermark: int)
    ensures LastFileStamp(watermark, []) == watermark
  {
  }

  /** Every discovered file lies at or below the advanced watermark, so none passes the filter again. */
  lemma AdvancedExcludesBatch(listing: seq<FileEntry>, watermark: int)
    ensures forall f :: f in Discover(listing, watermark) ==>
      !Accepts(f, LastFileStamp(watermark, Discover(listing, watermark)))
  {
  }

  /**
   * Re-running discovery over the same listing with the advanced watermark finds nothing:
   * files accepted before are now at or below it, and the rest were below the old one.
   */
  lemma {:induction false} RediscoverIsEmpty(listing: seq<FileEntry>, watermark: int)
    ensures Discover(listing, LastFileStamp(watermark, Discover(listing, watermark))) == []
  {
    var next := LastFileStamp(watermark, Discover(listing, watermark));
    forall f | f in listing
      ensures !Accepts(f, next)
    {
      if Accepts(f, watermark) {
        assert f in Discover(listing, watermark);
      }
    }
    DiscoverNothing(listing, next);
  }
}
